=== FILE: README.md ===
# Cell growth simulation — Dafny model

A model of the growth engine of Cell-Growth-Simulation-V2 and of its
standalone viewport prototype.

The engine lives in `src/main.ts`. It keeps a `gridHeight × gridWidth` matrix of alive/dead
cells and a set of "potential cells", the frontier. A user click toggles one
cell. A timed step turns every dead orthogonal neighbour of a frontier cell
alive. Those neighbours become the next frontier, and only they are repainted.
The run stops once the four corners and the centre are alive.

`src/cellSimulation.ts` is a separate prototype. It keeps a flat 400×400 byte
array that can be panned with the arrow keys.

Files:

- `ordered_set.dfy` (`OrderedSet`): a duplicate-free sequence with the
  insertion-order behaviour of a JavaScript `Set`. The frontier is one, so
  the order in which a step paints cells can be stated.
- `growth.dfy` (`Growth`): the engine state (`Engine`) and its operations.
  `Init` is `initGrid`, `Toggle` is `toggleCell`, `Step` is the grid/frontier
  part of `simulateStep` and `IsFilled` is `isGridFilled`. It also holds the
  proof of the step's contract.
- `growth_props.dfy` (`GrowthProps`): properties that span several calls.
  These cover toggling twice, order (in)dependence of a step, the paint order
  within one frontier cell, the 5×5 scenario, and the limits of the fill
  heuristic.
- `controller.dfy` (`Controller`): the run state (`isRunning` plus a
  pending-timer flag), start/pause/reset, the fill check and reschedule in
  `simulateStep`, and the event listeners as one `Apply` function.
- `js_math.dfy` (`JsMath`): integer `Math.max` and `Math.min`, shared by
  the two source files' models.
- `viewport.dfy` (`Viewport`): `getIndex`, the click toggle, arrow-key panning
  and the range of cells the draw loop visits.

Modelling choices:

- Cells are `(row, col)` pairs, the grid is `seq<seq<bool>>` and the frontier
  is a duplicate-free `seq` of pairs. This replaces the source's `"row,col"`
  string keys; the keys are only ever built from and parsed back to integers.
- `Alive` is total: a read outside the matrix gives `false`. In main.ts an
  out-of-range column of an existing row reads `undefined`, which is falsy,
  but an out-of-range row throws a `TypeError` (`undefined[c]`). No read in
  main.ts leaves the matrix: the neighbour reads are guarded (lines 146 and
  200), and the sentinel reads of `isGridFilled` (lines 235-243) are in
  bounds because reset keeps both dimensions at least 5. So the value of
  `Alive` outside the matrix never matters.
- `Valid` is structural well-formedness: the shape matches the dimensions, the
  frontier is duplicate-free and the frontier is inside the grid. `Inv` adds
  the engine invariant: every frontier cell is alive. `Init` establishes both.
  `Toggle` and `Step` preserve both. `Step` establishes `Inv` even from a
  merely `Valid` state.
- The painted cells (the `drawCell` calls) are returned as an ordered list,
  `Stepped.delta` / `Outcome.painted`. No pixels are modelled.
- The timer is a boolean. It becomes pending when `simulateStep` schedules
  itself while running. It stops being pending when it fires or when
  `pauseSimulation` cancels it. After a timer fires, the source keeps its
  stale handle in `stepTimer`, and a later `clearTimeout` on it does nothing.
  The model therefore treats a fired timer as gone.

Behaviour worth noting:

- Toggling a cell off removes it from the frontier and adds its alive
  in-bounds neighbours to it. Toggling a cell twice therefore restores the
  grid but not the frontier: those neighbours stay in it, so the frontier
  only grows (`GrowthProps.ToggleTwice`, `GrowthProps.ToggleTwiceGrowsFrontier`).
- A step also repaints a frontier cell that is dead in the working copy
  (main.ts:133-136). It does not put that cell in the new frontier. Under the
  invariant this never happens, and then the painted list equals the new
  frontier.
- The run state is `isRunning` plus the timer handle. A state that was never
  started and a paused state are the same state.
- `resetSimulation` clamps both dimensions to at least 5 before it calls
  `initGrid`; `initGrid` itself builds a grid of whatever size it is given.
- In the viewport prototype, `draw` adds `ceil(height / 10)` rows to the
  first visible row. When the vertical offset is not a multiple of 10 this
  can stop one row short of a partly visible last row
  (`Viewport.PartialRowSkipped`). Panning alone never loses a row: from the
  initial zero offsets it keeps the canvas starting or ending on a cell
  boundary (`Viewport.PanKeepsAligned`), and then the loop visits exactly
  the rows that overlap the canvas (`Viewport.VisibleRangeExact`). A window
  resize keeps the offset and can break this. Columns behave the same way.
  The model draws as the code does.
- `toggleCell` returns nothing. The new cell state is
  `Alive(Toggle(e, r, c).cells, (r, c))`, and the repainted cell is in
  `Outcome.painted`.

## Model

| member | source | states |
|---|---|---|
| OrderedSet.Add | Cell-Growth-Simulation-V2/src/main.ts:152 | adding to the frontier `Set` keeps it duplicate-free, keeps existing order and appends only an absent element |
| OrderedSet.Delete | Cell-Growth-Simulation-V2/src/main.ts:198 | deleting from the frontier `Set` removes exactly that element and keeps it duplicate-free |
| OrderedSet.DeleteInPlace | Cell-Growth-Simulation-V2/src/main.ts:198 | deleting a present element removes it in place: the elements before and after it keep their order |
| OrderedSet.DeleteAt | Cell-Growth-Simulation-V2/src/main.ts:198 | on a duplicate-free frontier, deleting the element at position `i` yields the elements before `i` followed by those after it |
| Growth.Neighbours | Cell-Growth-Simulation-V2/src/main.ts:139-144 | the four neighbour positions, up, down, left, right, are distinct and are exactly the cells orthogonally adjacent to the cell |
| Growth.Init | Cell-Growth-Simulation-V2/src/main.ts:36-43 | `initGrid` gives exactly `h` rows of `w` columns, all dead, and an empty frontier, so the invariant holds |
| Growth.AddAliveNeighbours | Cell-Growth-Simulation-V2/src/main.ts:199-205 | the frontier afterwards holds the old members plus exactly the listed neighbours that are in bounds and alive, keeping old order and no duplicates |
| Growth.AddAliveNeighboursInOrder | Cell-Growth-Simulation-V2/src/main.ts:199-205 | for a duplicate-free neighbour list, the frontier afterwards is the old frontier followed by the new in-bounds alive neighbours in list order (up, down, left, right), as `Set.add` appends them |
| Growth.Toggle | Cell-Growth-Simulation-V2/src/main.ts:179-207 | flips exactly the toggled cell; dead→alive adds it to the frontier (appended under the invariant); alive→dead deletes it in place and then appends its in-bounds alive neighbours not yet in the frontier, in the order up, down, left, right; well-formedness and the invariant are preserved |
| Growth.Step | Cell-Growth-Simulation-V2/src/main.ts:124-162 | never kills a cell; the alive cells afterwards are the old ones plus the in-bounds frontier cells and their in-bounds orthogonal neighbours; every newly alive cell is painted exactly once and nothing else is; under the invariant the new frontier equals the painted list and holds exactly the dead in-bounds neighbours of old frontier cells; the invariant holds afterwards |
| Growth.ExpandAllTracks | Cell-Growth-Simulation-V2/src/main.ts:127-156 | iterating the old frontier over the working copy only adds alive cells, records each newly alive cell once, and reaches exactly the frontier cells and their in-bounds neighbours, cells activated in the step are not expanded |
| Growth.ExpandAllNextIsDelta | Cell-Growth-Simulation-V2/src/main.ts:145-155 | when every frontier cell is alive, each collected neighbour is new to the frontier, so the new frontier is the painted list in the same order |
| Growth.IsFilled | Cell-Growth-Simulation-V2/src/main.ts:234-244 | `isGridFilled` is true iff the four corners and `(h/2, w/2)` (rounded down) are alive; a fully alive grid counts as filled |
| Growth.SentinelsInBounds | Cell-Growth-Simulation-V2/src/main.ts:235-241 | the five sentinel positions lie in the grid whenever it has at least one row and one column |
| GrowthProps.ToggleTwice | Cell-Growth-Simulation-V2/src/main.ts:179-206 | toggling a cell twice restores the grid; the frontier becomes the old frontier plus the cell's alive neighbours (plus the cell if it started alive), so it never loses a member |
| GrowthProps.ToggleTwiceGrowsFrontier | Cell-Growth-Simulation-V2/src/main.ts:197-205 | the frontier is not restored by a double toggle when the cell has an alive neighbour outside the frontier |
| GrowthProps.StepOrderIndependent | Cell-Growth-Simulation-V2/src/main.ts:124-162 | two frontiers with the same set of cells give the same grid and the same set of painted cells; under the invariant also the same set of new frontier cells |
| GrowthProps.StepOrderMattersWithDeadFrontierCell | Cell-Growth-Simulation-V2/src/main.ts:127-156 | without the invariant the new frontier depends on iteration order: a dead frontier cell visited first stays out of it, visited after its alive neighbour it gets in; the grids agree |
| GrowthProps.VisitAllOrder | Cell-Growth-Simulation-V2/src/main.ts:145-155 | visiting a duplicate-free neighbour list paints its in-bounds dead members once each, in list order |
| GrowthProps.ExpandOrder | Cell-Growth-Simulation-V2/src/main.ts:139-155 | an alive frontier cell paints its dead in-bounds neighbours in the order up, down, left, right |
| GrowthProps.StepSingleFrontierCell | Cell-Growth-Simulation-V2/src/main.ts:124-162 | a step from one alive frontier cell paints exactly its dead in-bounds neighbours in up, down, left, right order and they form the new frontier |
| GrowthProps.Scenario5x5 | Cell-Growth-Simulation-V2/src/main.ts:124-206 | on a fresh 5x5 grid, toggling (2,2) and stepping paints (1,2),(3,2),(2,1),(2,3) in that order as the new frontier; a second step paints exactly eight more cells; all corners stay dead and the grid is not filled |
| GrowthProps.FilledIsNotExhaustive | Cell-Growth-Simulation-V2/src/main.ts:234-244 | on any grid of at least 5x5, seeding only the five sentinels makes the fill check true while cell (0,1) is dead |
| Controller.Pause | Cell-Growth-Simulation-V2/src/main.ts:224-232 | a no-op when not running; otherwise clears running and any pending timer; the grid is untouched |
| Controller.SimulateStep | Cell-Growth-Simulation-V2/src/main.ts:116-169 | on a filled grid it only pauses; otherwise it performs one generation and, while running, schedules the next; a timer only becomes pending while running |
| Controller.Start | Cell-Growth-Simulation-V2/src/main.ts:217-222 | a no-op when running; otherwise runs one generation at once and stays running with the next step pending, or stops at once on a filled grid without painting anything |
| Controller.Reset | Cell-Growth-Simulation-V2/src/main.ts:247-254 | pauses, clamps both dimensions to `max(5, input)` and leaves a correctly shaped all-dead grid with an empty frontier, so the engine invariant holds whatever the state before |
| Controller.Boot | Cell-Growth-Simulation-V2/src/main.ts:316 | the state after page load is coherent, stopped, has no pending timer, has dimensions `max(5, input)`, an all-dead grid and an empty frontier |
| Controller.Apply | Cell-Growth-Simulation-V2/src/main.ts:259-290 | every listener keeps the state coherent; a reset request (button, dimension inputs, pixel-size input) performs exactly `resetSimulation`; an in-grid canvas click performs exactly `toggleCell`, frontier update included; start/pause pauses a running simulation and otherwise starts it, running one generation at once unless the grid is filled; a pending timer that fires runs one generation and schedules the next, or stops the run on a filled grid; a timer that is not pending changes nothing; interval change, window resize and reset leave it stopped with no timer; a timer is newly pending only while running or after start; interval change and window resize keep the grid and paint nothing; a canvas click leaves the run state alone, changes nothing when outside the grid, and otherwise flips exactly the clicked cell and repaints it |
| Controller.Run | Cell-Growth-Simulation-V2/src/main.ts:259-290 | every state reached by any sequence of events is coherent: the engine invariant holds, both dimensions are at least 5, and a timer is pending only while running |
| Controller.StartThenPause | Cell-Growth-Simulation-V2/src/main.ts:259-265 | start then pause on an unfilled grid performs exactly one generation and leaves no timer pending |
| Controller.TimerOnFilledGridStops | Cell-Growth-Simulation-V2/src/main.ts:116-122 | a timer that fires on a filled grid stops the run without changing the grid or painting anything |
| Viewport.GetIndex | Cell-Growth-Simulation-V2/src/cellSimulation.ts:20-22 | an in-grid cell's index lies in `[0, 160000)`, and row and column are recovered from it by division and remainder |
| Viewport.IndexRoundTrip | Cell-Growth-Simulation-V2/src/cellSimulation.ts:4-22 | every position of the 160000-element array is the index of an in-grid cell |
| Viewport.GetIndexInjective | Cell-Growth-Simulation-V2/src/cellSimulation.ts:20-22 | distinct in-grid cells have distinct indices |
| Viewport.ClickToggle | Cell-Growth-Simulation-V2/src/cellSimulation.ts:120-124 | a click inside the grid flips exactly the clicked cell between 1 and not-1; a click outside changes nothing |
| Viewport.ClickToggleTwice | Cell-Growth-Simulation-V2/src/cellSimulation.ts:120-123 | on a 0/1 array a click keeps it 0/1 and a second click on the same cell restores it |
| Viewport.Pan | Cell-Growth-Simulation-V2/src/cellSimulation.ts:128-147 | ArrowUp/Left move the offset back by up to 50 px and never below 0; ArrowDown/Right move it forward by up to 50 px and never past `4000 - canvas size`; the other offset is unchanged; other keys change nothing and do not redraw |
| Viewport.PanDownUp | Cell-Growth-Simulation-V2/src/cellSimulation.ts:131-135 | away from both limits ArrowDown then ArrowUp returns to the same view |
| Viewport.PanRightLeft | Cell-Growth-Simulation-V2/src/cellSimulation.ts:137-141 | away from both limits ArrowRight then ArrowLeft returns to the same view |
| Viewport.WideCanvasPansNegative | Cell-Growth-Simulation-V2/src/cellSimulation.ts:140-141 | on a canvas wider than 4000 px, ArrowRight makes the offset negative and the first visible column negative |
| Viewport.VisibleRange | Cell-Growth-Simulation-V2/src/cellSimulation.ts:38-46 | the last visible row and column never exceed 400; the first visible row/column is the cell under the offset; short of the far edge the range covers the whole canvas; the range's last row and column still overlap the canvas |
| Viewport.PanKeepsAligned | Cell-Growth-Simulation-V2/src/cellSimulation.ts:128-147 | the initial zero offsets are aligned (the canvas starts or ends on a cell boundary on each axis), and every arrow key keeps a view aligned |
| Viewport.VisibleRangeExact | Cell-Growth-Simulation-V2/src/cellSimulation.ts:38-49 | on an aligned view, a row (column) is visited exactly when it is inside the grid's far edge and its pixels overlap the canvas |
| Viewport.PartialRowSkipped | Cell-Growth-Simulation-V2/src/cellSimulation.ts:40-46 | with offset 2955 and canvas height 998, row 395 overlaps the canvas but the loop stops before it |
| Viewport.DrawCells | Cell-Growth-Simulation-V2/src/cellSimulation.ts:48-58 | the draw loop paints each cell of the visible range once, row by row, green iff its byte is 1; no row or column reaches 400; with non-negative offsets every read index lies inside the array |

## Left out

- Canvas rendering: `drawInitGrid`, the pixel geometry of `drawCell`, the
  repaint loop of `handleWindowResize`, the grid lines and `fillRect` calls in
  `draw`, and `resizeCanvas`. This is output only; painting is represented by
  the ordered list of painted cells.
- DOM wiring: element lookup, modal show/hide and button text. This is user
  interface with no effect on the engine.
- Real timing: `setTimeout`, `clearTimeout` and the interval value. The timer
  is modelled as a pending flag, and firing it is the `TimerFired` event.
- Input parsing: `parseInt` of the inputs. `Math.max(5, NaN)` is `NaN`, which
  the model does not represent; reset takes integer inputs.
- The cell size (`cellSize`, `handlePixelSizeChange`). It only affects
  drawing; the pixel-size input is modelled as the reset it triggers.
- Mouse-to-cell mapping (main.ts:277-282, cellSimulation.ts:113-118). It uses
  floating-point client coordinates. The model starts from the integer cell,
  and the bounds guard after it is modelled.
- `randomizeGrid` and `initCellSimulation`. They are nondeterministic
  (`Math.random`) and canvas setup.
- Controller.Reset: dimensions are unbounded integers. In main.ts,
  `new Array(gridWidth)` throws a `RangeError` for a width of `2^32` or more,
  which `parseInt` can produce; the model builds the grid anyway.
- Controller.Apply: the window-resize branch models only the pause, not the
  repaint.
- Growth.IsFilled: requires at least one row and one column. Out-of-range
  sentinel reads, which only smaller grids could cause, are not modelled;
  reset never produces such grids.

=== FILE: controller.dfy ===
/** The run/pause state machine around the growth engine: `startSimulation`,
    `pauseSimulation`, the fill check and reschedule of `simulateStep`,
    `resetSimulation` and the event listeners that call them, in
    Cell-Growth-Simulation-V2/src/main.ts. The timer is an abstract flag: a
    pending `setTimeout` whose callback is `simulateStep`. */
module Controller {
  import opened Growth
  import opened JsMath

  /** `isRunning`, and whether `stepTimer` holds a timer that has not fired. */
  datatype Sim = Sim(engine: Engine, running: bool, timerPending: bool)

  /** The state after an operation and the cells it painted, in paint order. */
  datatype Outcome = Outcome(sim: Sim, painted: seq<Coord>)

  /** The user events the page listens to. A reset comes from the reset
      button, either dimension input or the pixel-size input and carries the
      parsed dimension inputs; a canvas click carries the cell under the mouse. */
  datatype Event =
    | StartPauseClicked
    | ResetRequested(heightInput: int, widthInput: int)
    | IntervalChanged
    | WindowResized
    | TimerFired
    | CanvasClicked(row: int, col: int)

  /** What holds in every state the page can reach: the engine invariant,
      dimensions of at least 5, and a pending timer only while running. */
  predicate Coherent(s: Sim) {
    && Inv(s.engine)
    && s.engine.height >= 5 && s.engine.width >= 5
    && (s.timerPending ==> s.running)
  }

  /** `pauseSimulation`: a no-op when not running, otherwise stops and
      cancels the pending timer; the grid is kept. */
  function Pause(s: Sim): (r: Sim)
    ensures !s.running ==> r == s
    ensures s.running ==> !r.running && !r.timerPending
    ensures r.engine == s.engine
  {
    if !s.running then s else Sim(s.engine, false, false)
  }

  /** `simulateStep`: on a filled grid it pauses and changes nothing else;
      otherwise it runs one generation and, while running, schedules the next. */
  function SimulateStep(s: Sim): (r: Outcome)
    requires Valid(s.engine)
    ensures IsFilled(s.engine) ==> r.sim == Pause(s) && r.painted == []
    ensures !IsFilled(s.engine) ==>
      && r.sim.engine == Step(s.engine).engine && r.painted == Step(s.engine).delta
      && r.sim.running == s.running
      && (s.running ==> r.sim.timerPending)
    ensures r.sim.timerPending ==> s.timerPending || s.running
    ensures Coherent(s) ==> Coherent(r.sim)
  {
    if IsFilled(s.engine) then
      Outcome(Pause(s), [])
    else
      var st := Step(s.engine);
      Outcome(Sim(st.engine, s.running, s.running || s.timerPending), st.delta)
  }

  /** `startSimulation`: a no-op when running; otherwise sets running and
      steps at once. */
  function Start(s: Sim): (r: Outcome)
    requires Valid(s.engine)
    ensures s.running ==> r == Outcome(s, [])
    ensures !s.running && IsFilled(s.engine) ==>
      r.sim.engine == s.engine && !r.sim.running && !r.sim.timerPending && r.painted == []
    ensures !s.running && !IsFilled(s.engine) ==>
      && r.sim.engine == Step(s.engine).engine && r.painted == Step(s.engine).delta
      && r.sim.running && r.sim.timerPending
    ensures Coherent(s) ==> Coherent(r.sim)
  {
    if s.running then Outcome(s, [])
    else SimulateStep(Sim(s.engine, true, s.timerPending))
  }

  /** `resetSimulation`: pause, clamp both dimensions to at least 5 and start
      over from an all-dead grid with an empty frontier. */
  function Reset(s: Sim, heightInput: int, widthInput: int): (r: Sim)
    ensures !r.running
    ensures r.engine.height == Max(5, heightInput) && r.engine.width == Max(5, widthInput)
    ensures Shaped(r.engine.cells, r.engine.height, r.engine.width)
    ensures forall d :: !Alive(r.engine.cells, d)
    ensures r.engine.frontier == []
    ensures Inv(r.engine)
    ensures Coherent(s) ==> Coherent(r)
  {
    var p := Pause(s);
    Sim(Init(Max(5, heightInput), Max(5, widthInput)), p.running, p.timerPending)
  }

  /** The state right after the page loads: the initial `resetSimulation()`. */
  function Boot(heightInput: int, widthInput: int): (r: Sim)
    ensures Coherent(r) && !r.running && !r.timerPending
    ensures r.engine.height == Max(5, heightInput) && r.engine.width == Max(5, widthInput)
    ensures forall d :: !Alive(r.engine.cells, d)
    ensures r.engine.frontier == []
  {
    Reset(Sim(Engine(30, 30, [], []), false, false), heightInput, widthInput)
  }

  /** One event, as the listeners at the bottom of main.ts dispatch it. */
  function Apply(s: Sim, ev: Event): (r: Outcome)
    requires Coherent(s)
    ensures Coherent(r.sim)
    ensures ev.IntervalChanged? || ev.WindowResized? || ev.ResetRequested? ==> !r.sim.running && !r.sim.timerPending
    ensures r.sim.timerPending && !s.timerPending ==> s.running || ev.StartPauseClicked?
    ensures ev.CanvasClicked? ==> r.sim.running == s.running && r.sim.timerPending == s.timerPending
    ensures ev.StartPauseClicked? ==> r.sim.running == (!s.running && !IsFilled(s.engine))
    ensures ev.StartPauseClicked? && s.running ==> r.sim.engine == s.engine && r.painted == []
    ensures ev.StartPauseClicked? && !s.running && !IsFilled(s.engine) ==>
      && r.sim.engine == Step(s.engine).engine && r.painted == Step(s.engine).delta && r.sim.timerPending
    ensures ev.StartPauseClicked? && !s.running && IsFilled(s.engine) ==>
      r.sim.engine == s.engine && r.painted == [] && !r.sim.timerPending
    ensures ev.TimerFired? && !s.timerPending ==> r == Outcome(s, [])
    ensures ev.TimerFired? && s.timerPending && !IsFilled(s.engine) ==>
      && r.sim.engine == Step(s.engine).engine && r.painted == Step(s.engine).delta
      && r.sim.running && r.sim.timerPending
    ensures ev.TimerFired? && s.timerPending && IsFilled(s.engine) ==>
      r.sim.engine == s.engine && r.painted == [] && !r.sim.running && !r.sim.timerPending
    ensures ev.IntervalChanged? || ev.WindowResized? ==> r.sim.engine == s.engine && r.painted == []
    ensures ev.CanvasClicked? && !InBounds(s.engine.height, s.engine.width, (ev.row, ev.col)) ==>
      r == Outcome(s, [])
    ensures ev.CanvasClicked? && InBounds(s.engine.height, s.engine.width, (ev.row, ev.col)) ==>
      && Alive(r.sim.engine.cells, (ev.row, ev.col)) == !Alive(s.engine.cells, (ev.row, ev.col))
      && r.painted == [(ev.row, ev.col)]
      && r.sim.engine == Toggle(s.engine, ev.row, ev.col)
    ensures ev.ResetRequested? ==> r == Outcome(Reset(s, ev.heightInput, ev.widthInput), [])
    ensures ev.CanvasClicked? ==>
      forall d | d != (ev.row, ev.col) :: Alive(r.sim.engine.cells, d) == Alive(s.engine.cells, d)
  {
    match ev
    case StartPauseClicked =>
      if s.running then Outcome(Pause(s), []) else Start(s)
    case ResetRequested(h, w) =>
      Outcome(Reset(s, h, w), [])
    case IntervalChanged =>
      Outcome(Pause(s), [])
    case WindowResized =>
      Outcome(if s.running then Pause(s) else s, [])
    case TimerFired =>
      if !s.timerPending then Outcome(s, [])
      else SimulateStep(Sim(s.engine, s.running, false))
    case CanvasClicked(row, col) =>
      if InBounds(s.engine.height, s.engine.width, (row, col)) then
        Outcome(Sim(Toggle(s.engine, row, col), s.running, s.timerPending), [(row, col)])
      else Outcome(s, [])
  }

  /** Replays a sequence of events; every state on the way is coherent. */
  function Run(s: Sim, evs: seq<Event>): (r: Sim)
    requires Coherent(s)
    ensures Coherent(r)
    decreases |evs|
  {
    if evs == [] then s else Run(Apply(s, evs[0]).sim, evs[1..])
  }

  /** Pausing twice is pausing once. */
  lemma PauseIdempotent(s: Sim)
    ensures Pause(Pause(s)) == Pause(s)
    ensures !Pause(s).running
  {
  }

  /** Clicking start/pause twice on a stopped, unfilled simulation runs one
      generation and leaves it stopped with no timer pending. */
  lemma StartThenPause(s: Sim)
    requires Coherent(s) && !s.running && !IsFilled(s.engine)
    ensures
      var r := Apply(Apply(s, StartPauseClicked).sim, StartPauseClicked).sim;
      && r.engine == Step(s.engine).engine && !r.running && !r.timerPending
  {
  }

  /** A running simulation keeps stepping, one timer at a time, until the
      fill check holds; then it stops without touching the grid. */
  lemma TimerOnFilledGridStops(s: Sim)
    requires Coherent(s) && s.running && s.timerPending && IsFilled(s.engine)
    ensures
      var r := Apply(s, TimerFired);
      && r.sim.engine == s.engine && r.painted == [] && !r.sim.running && !r.sim.timerPending
  {
  }
}

=== FILE: growth.dfy ===
/** The growth engine of the cell simulation: an alive/dead matrix plus the
    frontier ("potential cells") from which the next generation grows.
    Models `initGrid`, `toggleCell`, the grid/frontier part of
    `simulateStep` and `isGridFilled` of Cell-Growth-Simulation-V2/src/main.ts. */
module Growth {
  import opened OrderedSet

  /** A cell position (row, col). */
  type Coord = (int, int)

  /** `grid[row][col]`; true means alive. */
  type Grid = seq<seq<bool>>

  /** The engine state: the dimensions, the cell matrix and the frontier in
      the insertion order of the source's `Set`. */
  datatype Engine = Engine(height: int, width: int, cells: Grid, frontier: seq<Coord>)

  function Abs(x: int): nat {
    if x < 0 then -x else x
  }

  predicate InBounds(h: int, w: int, c: Coord) {
    0 <= c.0 < h && 0 <= c.1 < w
  }

  /** Exactly `h` rows of `w` columns. */
  predicate Shaped(g: Grid, h: int, w: int) {
    |g| == h && forall r | 0 <= r < |g| :: |g[r]| == w
  }

  /** Reads a cell; a read outside the matrix is dead. In main.ts an
      out-of-range column reads `undefined` (falsy) and an out-of-range row
      throws, but every read there is guarded or in bounds, so this case
      never arises. */
  predicate Alive(g: Grid, c: Coord) {
    0 <= c.0 < |g| && 0 <= c.1 < |g[c.0]| && g[c.0][c.1]
  }

  /** Writes one cell, leaving every other cell and the shape alone. */
  function Put(g: Grid, c: Coord, v: bool): (r: Grid)
    ensures |r| == |g| && forall i | 0 <= i < |g| :: |r[i]| == |g[i]|
    ensures forall d :: Alive(r, d) == if d == c && 0 <= c.0 < |g| && 0 <= c.1 < |g[c.0]| then v else Alive(g, d)
  {
    if 0 <= c.0 < |g| && 0 <= c.1 < |g[c.0]| then g[c.0 := g[c.0][c.1 := v]] else g
  }

  /** Orthogonal adjacency, defined independently of `Neighbours`. */
  predicate Adjacent(a: Coord, b: Coord) {
    Abs(a.0 - b.0) + Abs(a.1 - b.1) == 1
  }

  /** The four orthogonal neighbours in the source's order: up, down, left, right. */
  function Neighbours(c: Coord): (ns: seq<Coord>)
    ensures |ns| == 4 && NoDup(ns)
    ensures forall d :: d in ns <==> Adjacent(c, d)
  {
    [(c.0 - 1, c.1), (c.0 + 1, c.1), (c.0, c.1 - 1), (c.0, c.1 + 1)]
  }

  /** Structural well-formedness: the shape matches the dimensions, the
      frontier is duplicate-free (it is a `Set`) and lies inside the grid. */
  predicate Valid(e: Engine) {
    && e.height >= 1 && e.width >= 1
    && Shaped(e.cells, e.height, e.width)
    && NoDup(e.frontier)
    && forall f | f in e.frontier :: InBounds(e.height, e.width, f)
  }

  /** The engine invariant: every frontier cell is alive. */
  predicate FrontierAlive(e: Engine) {
    forall f | f in e.frontier :: Alive(e.cells, f)
  }

  predicate Inv(e: Engine) {
    Valid(e) && FrontierAlive(e)
  }

  /** Grids of the same shape that agree on every cell are equal. */
  lemma GridExt(a: Grid, b: Grid, h: int, w: int)
    requires Shaped(a, h, w) && Shaped(b, h, w)
    requires forall d :: Alive(a, d) == Alive(b, d)
    ensures a == b
  {
    forall r | 0 <= r < h
      ensures a[r] == b[r]
    {
      forall c | 0 <= c < w
        ensures a[r][c] == b[r][c]
      {
        assert Alive(a, (r, c)) == Alive(b, (r, c));
      }
    }
  }

  //---------------------------------------------------------------------------
  // initGrid
  //---------------------------------------------------------------------------

  /** `initGrid`: `h` rows of `w` dead cells and an empty frontier. */
  function Init(h: nat, w: nat): (e: Engine)
    ensures e.height == h && e.width == w
    ensures Shaped(e.cells, h, w)
    ensures forall c :: !Alive(e.cells, c)
    ensures e.frontier == []
    ensures h >= 1 && w >= 1 ==> Inv(e)
  {
    Engine(h, w, seq(h, _ => seq(w, _ => false)), [])
  }

  //---------------------------------------------------------------------------
  // toggleCell
  //---------------------------------------------------------------------------

  /** The `neighbors.forEach` of `toggleCell`: adds, in order, each neighbour
      that is inside the grid and alive. */
  function AddAliveNeighbours(h: int, w: int, g: Grid, s: seq<Coord>, ns: seq<Coord>): (r: seq<Coord>)
    ensures forall d :: d in r <==> d in s || (d in ns && InBounds(h, w, d) && Alive(g, d))
    ensures NoDup(s) ==> NoDup(r)
    ensures |s| <= |r| && r[..|s|] == s
    decreases ns
  {
    if ns == [] then s
    else
      var n := ns[0];
      var s' := if InBounds(h, w, n) && Alive(g, n) then Add(s, n) else s;
      assert forall d :: d in ns <==> d == n || d in ns[1..];
      AddAliveNeighbours(h, w, g, s', ns[1..])
  }

  /** The members of `ns`, in order, that are inside the grid, alive in `g` and
      not yet in `s`: what `AddAliveNeighbours` appends. */
  function NewAlive(h: int, w: int, g: Grid, s: seq<Coord>, ns: seq<Coord>): (r: seq<Coord>)
    ensures forall d :: d in r <==> d in ns && InBounds(h, w, d) && Alive(g, d) && d !in s
    decreases ns
  {
    if ns == [] then []
    else
      assert forall d :: d in ns <==> d == ns[0] || d in ns[1..];
      (if InBounds(h, w, ns[0]) && Alive(g, ns[0]) && ns[0] !in s then [ns[0]] else [])
      + NewAlive(h, w, g, s, ns[1..])
  }

  /** Adding a cell that does not occur in `ns` to `s` does not change which
      members of `ns` are new. */
  lemma {:induction false} NewAliveFrame(h: int, w: int, g: Grid, s: seq<Coord>, x: Coord, ns: seq<Coord>)
    requires x !in ns
    ensures NewAlive(h, w, g, s + [x], ns) == NewAlive(h, w, g, s, ns)
    decreases ns
  {
    if ns != [] {
      assert ns[0] in s + [x] <==> ns[0] in s;
      NewAliveFrame(h, w, g, s, x, ns[1..]);
    }
  }

  /** `Set.add` appends the in-bounds alive neighbours in list order: the
      result is the old frontier followed by the new members of `ns`. */
  lemma {:induction false} AddAliveNeighboursInOrder(h: int, w: int, g: Grid, s: seq<Coord>, ns: seq<Coord>)
    requires NoDup(ns)
    ensures AddAliveNeighbours(h, w, g, s, ns) == s + NewAlive(h, w, g, s, ns)
    decreases ns
  {
    if ns != [] {
      var n, rest := ns[0], ns[1..];
      assert NoDup(rest) && n !in rest;
      if InBounds(h, w, n) && Alive(g, n) && n !in s {
        AddNewHead(h, w, g, s, ns);
        AddAliveNeighboursInOrder(h, w, g, s + [n], rest);
        NewAliveFrame(h, w, g, s, n, rest);
        assert NewAlive(h, w, g, s, ns) == [n] + NewAlive(h, w, g, s, rest);
        AppendAssoc(s, n, NewAlive(h, w, g, s, rest));
      } else {
        AddAliveNeighboursInOrder(h, w, g, s, rest);
        assert NewAlive(h, w, g, s, ns) == NewAlive(h, w, g, s, rest);
      }
    }
  }

  /** Appending one element, then a tail, is appending both at once. */
  lemma AppendAssoc(s: seq<Coord>, n: Coord, t: seq<Coord>)
    ensures (s + [n]) + t == s + ([n] + t)
  {
  }

  /** A new head is appended to `s` before the rest is visited. */
  lemma {:induction false} AddNewHead(h: int, w: int, g: Grid, s: seq<Coord>, ns: seq<Coord>)
    requires ns != [] && InBounds(h, w, ns[0]) && Alive(g, ns[0]) && ns[0] !in s
    ensures AddAliveNeighbours(h, w, g, s, ns) == AddAliveNeighbours(h, w, g, s + [ns[0]], ns[1..])
  {
    assert Add(s, ns[0]) == s + [ns[0]];
  }

  /** `toggleCell(row, col)`: flips one cell; a cell that comes alive joins
      the frontier, a cell that dies leaves it and re-activates its alive
      neighbours. The new state of the cell is `Alive(r.cells, (row, col))`. */
  function Toggle(e: Engine, row: int, col: int): (r: Engine)
    requires Valid(e) && InBounds(e.height, e.width, (row, col))
    ensures r.height == e.height && r.width == e.width && Valid(r)
    ensures Alive(r.cells, (row, col)) == !Alive(e.cells, (row, col))
    ensures forall d | d != (row, col) :: Alive(r.cells, d) == Alive(e.cells, d)
    ensures !Alive(e.cells, (row, col)) ==>
      forall d :: d in r.frontier <==> d in e.frontier || d == (row, col)
    ensures Alive(e.cells, (row, col)) ==>
      forall d :: d in r.frontier <==>
        (d in e.frontier && d != (row, col)) || (Adjacent((row, col), d) && Alive(e.cells, d))
    ensures Alive(e.cells, (row, col)) ==>
      var kept := Delete(e.frontier, (row, col));
      r.frontier == kept + NewAlive(e.height, e.width, r.cells, kept, Neighbours((row, col)))
    ensures |e.frontier| <= |r.frontier| || Alive(e.cells, (row, col))
    ensures !Alive(e.cells, (row, col)) && FrontierAlive(e) ==> r.frontier == e.frontier + [(row, col)]
    ensures FrontierAlive(e) ==> FrontierAlive(r)
  {
    var c := (row, col);
    var oldVal := e.cells[row][col];
    var cells := Put(e.cells, c, !oldVal);
    assert Alive(e.cells, c) == oldVal;
    assert Shaped(cells, e.height, e.width);
    if !oldVal then
      Engine(e.height, e.width, cells, Add(e.frontier, c))
    else
      var f := AddAliveNeighbours(e.height, e.width, cells, Delete(e.frontier, c), Neighbours(c));
      AddAliveNeighboursInOrder(e.height, e.width, cells, Delete(e.frontier, c), Neighbours(c));
      assert forall d | d in Neighbours(c) :: d != c;
      Engine(e.height, e.width, cells, f)
  }

  //---------------------------------------------------------------------------
  // simulateStep (grid and frontier)
  //---------------------------------------------------------------------------

  /** The working state of one step: the working copy `newGrid`, the new
      frontier `newPotentialCells` and the cells painted so far. */
  datatype Acc = Acc(cells: Grid, next: seq<Coord>, delta: seq<Coord>)

  /** One neighbour of the inner `forEach`: an in-bounds neighbour that is
      dead in the working copy is marked alive, painted and collected. */
  function Visit(h: int, w: int, acc: Acc, n: Coord): Acc {
    if InBounds(h, w, n) && !Alive(acc.cells, n) then
      Acc(Put(acc.cells, n, true), Add(acc.next, n), acc.delta + [n])
    else acc
  }

  function VisitAll(h: int, w: int, acc: Acc, ns: seq<Coord>): Acc
    decreases ns
  {
    if ns == [] then acc else VisitAll(h, w, Visit(h, w, acc, ns[0]), ns[1..])
  }

  /** One frontier cell of the outer `forEach`: mark it alive (painting it if
      it was dead), then visit its neighbours up, down, left, right. */
  function Expand(h: int, w: int, acc: Acc, c: Coord): Acc {
    var marked :=
      if !Alive(acc.cells, c) then Acc(Put(acc.cells, c, true), acc.next, acc.delta + [c])
      else acc;
    VisitAll(h, w, marked, Neighbours(c))
  }

  function ExpandAll(h: int, w: int, acc: Acc, fs: seq<Coord>): Acc
    decreases fs
  {
    if fs == [] then acc else ExpandAll(h, w, Expand(h, w, acc, fs[0]), fs[1..])
  }

  /** The outcome of a step: the new engine and the painted cells, in paint order. */
  datatype Stepped = Stepped(engine: Engine, delta: seq<Coord>)

  /** Cell `d` lies in the grid and is a frontier cell or next to one. */
  ghost predicate Reached(h: int, w: int, fs: seq<Coord>, d: Coord) {
    InBounds(h, w, d) && exists f :: f in fs && (f == d || Adjacent(f, d))
  }

  /** Cell `d` is a dead in-bounds orthogonal neighbour of a frontier cell:
      the cells one generation activates. */
  ghost predicate Activated(e: Engine, d: Coord) {
    InBounds(e.height, e.width, d) && !Alive(e.cells, d)
    && exists f :: f in e.frontier && Adjacent(f, d)
  }

  /** Lines 124-162 of `simulateStep`: one synchronous generation over the
      old frontier; the new frontier replaces the old one wholesale. */
  function Step(e: Engine): (r: Stepped)
    requires Valid(e)
    ensures r.engine.height == e.height && r.engine.width == e.width
    ensures Inv(r.engine)
    ensures forall d :: Alive(e.cells, d) ==> Alive(r.engine.cells, d)
    ensures forall d :: Alive(r.engine.cells, d) <==> Alive(e.cells, d) || Reached(e.height, e.width, e.frontier, d)
    ensures NoDup(r.delta)
    ensures forall d :: d in r.delta <==> Alive(r.engine.cells, d) && !Alive(e.cells, d)
    ensures FrontierAlive(e) ==> r.engine.frontier == r.delta
    ensures FrontierAlive(e) ==> forall d :: d in r.engine.frontier <==> Activated(e, d)
  {
    var acc0 := Acc(e.cells, [], []);
    var acc := ExpandAll(e.height, e.width, acc0, e.frontier);
    ExpandAllTracks(e.height, e.width, e.cells, acc0, e.frontier);
    if FrontierAlive(e) then
      ExpandAllNextIsDelta(e.height, e.width, e.cells, acc0, e.frontier);
      ActivatedIsReachedAndDead(e, acc.cells);
      Stepped(Engine(e.height, e.width, acc.cells, acc.next), acc.delta)
    else
      Stepped(Engine(e.height, e.width, acc.cells, acc.next), acc.delta)
  }

  //---------------------------------------------------------------------------
  // Proof of the step's contract
  //---------------------------------------------------------------------------

  /** The working state relative to the pre-step grid `g0`: cells only come
      alive, `delta` lists exactly the cells that came alive, once each, and
      the new frontier is drawn from them. */
  ghost predicate Tracks(h: int, w: int, g0: Grid, acc: Acc) {
    && Shaped(acc.cells, h, w)
    && NoDup(acc.delta) && NoDup(acc.next)
    && (forall d :: Alive(g0, d) ==> Alive(acc.cells, d))
    && (forall d :: d in acc.delta <==> Alive(acc.cells, d) && !Alive(g0, d))
    && (forall d :: d in acc.next ==> d in acc.delta)
  }

  lemma VisitTracks(h: int, w: int, g0: Grid, acc: Acc, n: Coord)
    requires Tracks(h, w, g0, acc)
    ensures Tracks(h, w, g0, Visit(h, w, acc, n))
    ensures forall d :: Alive(Visit(h, w, acc, n).cells, d) <==> Alive(acc.cells, d) || (d == n && InBounds(h, w, n))
  {
    if InBounds(h, w, n) && !Alive(acc.cells, n) {
      var r := Visit(h, w, acc, n);
      assert n !in acc.delta;
      forall i, j | 0 <= i < j < |r.delta|
        ensures r.delta[i] != r.delta[j]
      {
        if j == |acc.delta| {
          assert r.delta[i] == acc.delta[i];
        }
      }
    }
  }

  lemma {:induction false} VisitAllTracks(h: int, w: int, g0: Grid, acc: Acc, ns: seq<Coord>)
    requires Tracks(h, w, g0, acc)
    ensures Tracks(h, w, g0, VisitAll(h, w, acc, ns))
    ensures forall d :: Alive(VisitAll(h, w, acc, ns).cells, d) <==> Alive(acc.cells, d) || (d in ns && InBounds(h, w, d))
    decreases ns
  {
    if ns != [] {
      VisitTracks(h, w, g0, acc, ns[0]);
      VisitAllTracks(h, w, g0, Visit(h, w, acc, ns[0]), ns[1..]);
      assert forall d :: d in ns <==> d == ns[0] || d in ns[1..];
    }
  }

  lemma ExpandTracks(h: int, w: int, g0: Grid, acc: Acc, c: Coord)
    requires Tracks(h, w, g0, acc) && InBounds(h, w, c)
    ensures Tracks(h, w, g0, Expand(h, w, acc, c))
    ensures forall d :: Alive(Expand(h, w, acc, c).cells, d) <==>
      Alive(acc.cells, d) || (InBounds(h, w, d) && (d == c || Adjacent(c, d)))
  {
    var marked :=
      if !Alive(acc.cells, c) then Acc(Put(acc.cells, c, true), acc.next, acc.delta + [c])
      else acc;
    if !Alive(acc.cells, c) {
      assert c !in acc.delta;
      forall i, j | 0 <= i < j < |marked.delta|
        ensures marked.delta[i] != marked.delta[j]
      {
        if j == |acc.delta| {
          assert marked.delta[i] == acc.delta[i];
        }
      }
    }
    assert Tracks(h, w, g0, marked);
    VisitAllTracks(h, w, g0, marked, Neighbours(c));
  }

  lemma {:induction false} ExpandAllTracks(h: int, w: int, g0: Grid, acc: Acc, fs: seq<Coord>)
    requires Tracks(h, w, g0, acc)
    requires forall f | f in fs :: InBounds(h, w, f)
    ensures Tracks(h, w, g0, ExpandAll(h, w, acc, fs))
    ensures forall d :: Alive(ExpandAll(h, w, acc, fs).cells, d) <==> Alive(acc.cells, d) || Reached(h, w, fs, d)
    decreases fs
  {
    if fs != [] {
      var a1 := Expand(h, w, acc, fs[0]);
      ExpandTracks(h, w, g0, acc, fs[0]);
      ExpandAllTracks(h, w, g0, a1, fs[1..]);
      var r := ExpandAll(h, w, acc, fs);
      forall d
        ensures Alive(r.cells, d) <==> Alive(acc.cells, d) || Reached(h, w, fs, d)
      {
        if Reached(h, w, fs, d) && !Alive(acc.cells, d) {
          var f :| f in fs && (f == d || Adjacent(f, d));
          if f != fs[0] {
            assert f in fs[1..];
            assert Reached(h, w, fs[1..], d);
          }
        }
        if Reached(h, w, fs[1..], d) {
          var f :| f in fs[1..] && (f == d || Adjacent(f, d));
          assert f in fs;
        }
        if InBounds(h, w, d) && (d == fs[0] || Adjacent(fs[0], d)) {
          assert fs[0] in fs;
        }
      }
    }
  }

  /** Under the invariant each visited neighbour is new to the frontier, so
      the new frontier is exactly the painted list, in the same order. */
  lemma {:induction false} VisitAllNextIsDelta(h: int, w: int, g0: Grid, acc: Acc, ns: seq<Coord>)
    requires Tracks(h, w, g0, acc) && acc.next == acc.delta
    ensures VisitAll(h, w, acc, ns).next == VisitAll(h, w, acc, ns).delta
    decreases ns
  {
    if ns != [] {
      var n := ns[0];
      if InBounds(h, w, n) && !Alive(acc.cells, n) {
        assert n !in acc.delta;
      }
      VisitTracks(h, w, g0, acc, n);
      VisitAllNextIsDelta(h, w, g0, Visit(h, w, acc, n), ns[1..]);
    }
  }

  lemma {:induction false} ExpandAllNextIsDelta(h: int, w: int, g0: Grid, acc: Acc, fs: seq<Coord>)
    requires Tracks(h, w, g0, acc) && acc.next == acc.delta
    requires forall f | f in fs :: InBounds(h, w, f) && Alive(acc.cells, f)
    ensures ExpandAll(h, w, acc, fs).next == ExpandAll(h, w, acc, fs).delta
    decreases fs
  {
    if fs != [] {
      VisitAllNextIsDelta(h, w, g0, acc, Neighbours(fs[0]));
      ExpandTracks(h, w, g0, acc, fs[0]);
      ExpandAllNextIsDelta(h, w, g0, Expand(h, w, acc, fs[0]), fs[1..]);
    }
  }

  lemma ActivatedIsReachedAndDead(e: Engine, cells: Grid)
    requires FrontierAlive(e)
    ensures forall d :: Activated(e, d) <==> Reached(e.height, e.width, e.frontier, d) && !Alive(e.cells, d)
  {
    forall d | Reached(e.height, e.width, e.frontier, d) && !Alive(e.cells, d)
      ensures Activated(e, d)
    {
      var f :| f in e.frontier && (f == d || Adjacent(f, d));
      assert f != d;
    }
  }

  //---------------------------------------------------------------------------
  // isGridFilled
  //---------------------------------------------------------------------------

  /** The five cells `isGridFilled` inspects: the four corners, then the centre. */
  function Sentinels(h: int, w: int): seq<Coord> {
    [(0, 0), (0, w - 1), (h - 1, 0), (h - 1, w - 1), (h / 2, w / 2)]
  }

  /** `isGridFilled`: the corners and the centre are all alive. */
  function IsFilled(e: Engine): (r: bool)
    requires Valid(e)
    ensures r <==> forall s | s in Sentinels(e.height, e.width) :: Alive(e.cells, s)
    ensures (forall d | InBounds(e.height, e.width, d) :: Alive(e.cells, d)) ==> r
  {
    SentinelsInBounds(e.height, e.width);
    var g := e.cells;
    var ss := Sentinels(e.height, e.width);
    assert forall i | 0 <= i < 5 :: Alive(g, ss[i]) == g[ss[i].0][ss[i].1];
    assert forall s | s in ss :: s == ss[0] || s == ss[1] || s == ss[2] || s == ss[3] || s == ss[4];
    && g[0][0]
    && g[0][e.width - 1]
    && g[e.height - 1][0]
    && g[e.height - 1][e.width - 1]
    && g[e.height / 2][e.width / 2]
  }

  /** With at least one row and one column every sentinel index is in range. */
  lemma SentinelsInBounds(h: int, w: int)
    requires h >= 1 && w >= 1
    ensures forall s | s in Sentinels(h, w) :: InBounds(h, w, s)
  {
  }
}

=== FILE: growth_props.dfy ===
/** Properties of the growth engine that relate several operations or
    several runs: toggling twice, order (in)dependence of a step, the paint
    order inside one frontier cell, the 5x5 scenario and the limits of the
    fill heuristic. */
module GrowthProps {
  import opened OrderedSet
  import opened Growth

  //---------------------------------------------------------------------------
  // Toggling twice
  //---------------------------------------------------------------------------

  /** Toggling a cell twice restores the grid, but the frontier only grows:
      the cell's alive neighbours stay behind in it, and so does the cell
      itself when it started alive. */
  lemma ToggleTwice(e: Engine, row: int, col: int)
    requires Inv(e) && InBounds(e.height, e.width, (row, col))
    ensures Toggle(Toggle(e, row, col), row, col).cells == e.cells
    ensures forall d :: d in Toggle(Toggle(e, row, col), row, col).frontier <==>
      d in e.frontier || (Adjacent((row, col), d) && Alive(e.cells, d))
      || (d == (row, col) && Alive(e.cells, (row, col)))
    ensures forall d | d in e.frontier :: d in Toggle(Toggle(e, row, col), row, col).frontier
  {
    var c := (row, col);
    var e1 := Toggle(e, row, col);
    var e2 := Toggle(e1, row, col);
    GridExt(e2.cells, e.cells, e.height, e.width);
    if Alive(e.cells, c) {
      assert forall d | Adjacent(c, d) :: d != c;
    } else {
      assert c !in e.frontier;
      assert forall d | Adjacent(c, d) :: d != c;
    }
  }

  /** The frontier is not restored by a double toggle as soon as the cell has
      an alive neighbour that is not already in the frontier. */
  lemma ToggleTwiceGrowsFrontier(e: Engine, row: int, col: int, n: Coord)
    requires Inv(e) && InBounds(e.height, e.width, (row, col))
    requires Adjacent((row, col), n) && Alive(e.cells, n) && n !in e.frontier
    ensures Toggle(Toggle(e, row, col), row, col).frontier != e.frontier
  {
    ToggleTwice(e, row, col);
  }

  //---------------------------------------------------------------------------
  // Order (in)dependence of a step
  //---------------------------------------------------------------------------

  /** The grid after a step depends only on the SET of frontier cells; under
      the invariant so does the set of new frontier cells (and painted cells). */
  lemma StepOrderIndependent(e1: Engine, e2: Engine)
    requires Valid(e1) && Valid(e2)
    requires e1.height == e2.height && e1.width == e2.width && e1.cells == e2.cells
    requires Elems(e1.frontier) == Elems(e2.frontier)
    ensures Step(e1).engine.cells == Step(e2).engine.cells
    ensures Elems(Step(e1).delta) == Elems(Step(e2).delta)
    ensures FrontierAlive(e1) ==> Elems(Step(e1).engine.frontier) == Elems(Step(e2).engine.frontier)
  {
    var r1 := Step(e1);
    var r2 := Step(e2);
    assert forall f :: f in e1.frontier <==> f in e2.frontier by {
      forall f ensures f in e1.frontier <==> f in e2.frontier {
        assert f in e1.frontier <==> f in Elems(e1.frontier);
        assert f in e2.frontier <==> f in Elems(e2.frontier);
      }
    }
    forall d
      ensures Reached(e1.height, e1.width, e1.frontier, d) == Reached(e2.height, e2.width, e2.frontier, d)
    {
      if Reached(e1.height, e1.width, e1.frontier, d) {
        var f :| f in e1.frontier && (f == d || Adjacent(f, d));
        assert f in e2.frontier;
      }
      if Reached(e2.height, e2.width, e2.frontier, d) {
        var f :| f in e2.frontier && (f == d || Adjacent(f, d));
        assert f in e1.frontier;
      }
    }
    GridExt(r1.engine.cells, r2.engine.cells, e1.height, e1.width);
  }

  /** Outside the invariant the new frontier depends on iteration order: with
      a dead frontier cell (2,1) next to the alive frontier cell (2,2), visiting
      (2,1) first keeps it out of the new frontier, visiting (2,2) first puts
      it in. The grids agree either way. */
  lemma StepOrderMattersWithDeadFrontierCell()
    ensures
      var g := Put(Init(5, 5).cells, (2, 2), true);
      var eA := Engine(5, 5, g, [(2, 1), (2, 2)]);
      var eB := Engine(5, 5, g, [(2, 2), (2, 1)]);
      && Valid(eA) && Valid(eB) && !FrontierAlive(eA)
      && Step(eA).engine.cells == Step(eB).engine.cells
      && (2, 1) !in Step(eA).engine.frontier
      && (2, 1) in Step(eB).engine.frontier
  {
    var g := Put(Init(5, 5).cells, (2, 2), true);
    assert Shaped(g, 5, 5) && !Alive(g, (2, 1)) && Alive(g, (2, 2));
    DeadFrontierCellFirst(g);
    AliveFrontierCellFirst(g);
  }

  /** Visiting the dead cell (2,1) before its alive neighbour (2,2). */
  lemma DeadFrontierCellFirst(g: Grid)
    requires Shaped(g, 5, 5) && !Alive(g, (2, 1)) && Alive(g, (2, 2))
    ensures
      var eA := Engine(5, 5, g, [(2, 1), (2, 2)]);
      Valid(eA) && !FrontierAlive(eA) && (2, 1) !in Step(eA).engine.frontier
  {
    var eA := Engine(5, 5, g, [(2, 1), (2, 2)]);
    assert NoDup(eA.frontier) && eA.frontier[0] == (2, 1);
    assert forall f | f in eA.frontier :: InBounds(5, 5, f);
    var acc0 := Acc(g, [], []);
    assert Tracks(5, 5, g, acc0);
    assert Step(eA).engine.frontier == ExpandAll(5, 5, acc0, eA.frontier).next;
    ExpandAllHeadNotCollected(5, 5, g, acc0, eA.frontier);
  }

  /** The first frontier cell visited never enters the new frontier: it is
      alive by the time any neighbour looks at it. */
  lemma ExpandAllHeadNotCollected(h: int, w: int, g0: Grid, acc: Acc, fs: seq<Coord>)
    requires Tracks(h, w, g0, acc) && forall f | f in fs :: InBounds(h, w, f)
    requires fs != [] && fs[0] !in acc.next
    ensures fs[0] !in ExpandAll(h, w, acc, fs).next
  {
    var c := fs[0];
    var marked :=
      if !Alive(acc.cells, c) then Acc(Put(acc.cells, c, true), acc.next, acc.delta + [c])
      else acc;
    assert fs[0] in fs;
    assert Alive(marked.cells, c);
    VisitAllSkipsAlive(h, w, marked, Neighbours(c), c);
    ExpandTracks(h, w, g0, acc, c);
    ExpandAllSkipsAlive(h, w, g0, Expand(h, w, acc, c), fs[1..], c);
  }

  /** Visiting the alive cell (2,2) before its dead neighbour (2,1); the grid
      is the same as in the other order. */
  lemma AliveFrontierCellFirst(g: Grid)
    requires Shaped(g, 5, 5) && !Alive(g, (2, 1)) && Alive(g, (2, 2))
    ensures
      var eA := Engine(5, 5, g, [(2, 1), (2, 2)]);
      var eB := Engine(5, 5, g, [(2, 2), (2, 1)]);
      && Valid(eB)
      && Step(eA).engine.cells == Step(eB).engine.cells
      && (2, 1) in Step(eB).engine.frontier
  {
    var eA := Engine(5, 5, g, [(2, 1), (2, 2)]);
    var eB := Engine(5, 5, g, [(2, 2), (2, 1)]);
    assert Elems(eA.frontier) == Elems(eB.frontier);
    StepOrderIndependent(eA, eB);
    var acc0 := Acc(g, [], []);
    assert Tracks(5, 5, g, acc0);
    ExpandAllHeadCollects(5, 5, g, acc0, eB.frontier, (2, 1));
  }

  /** An in-bounds neighbour of an alive first frontier cell that is dead at
      the start of the step enters the new frontier. */
  lemma ExpandAllHeadCollects(h: int, w: int, g0: Grid, acc: Acc, fs: seq<Coord>, x: Coord)
    requires Tracks(h, w, g0, acc)
    requires fs != [] && Alive(acc.cells, fs[0])
    requires Adjacent(fs[0], x) && InBounds(h, w, x) && !Alive(acc.cells, x)
    ensures x in ExpandAll(h, w, acc, fs).next
  {
    var c := fs[0];
    VisitAllCollects(h, w, g0, acc, Neighbours(c), x);
    ExpandAllKeepsNext(h, w, Expand(h, w, acc, c), fs[1..]);
  }

  lemma {:induction false} VisitAllKeepsNext(h: int, w: int, acc: Acc, ns: seq<Coord>)
    ensures forall d | d in acc.next :: d in VisitAll(h, w, acc, ns).next
    decreases ns
  {
    if ns != [] {
      VisitAllKeepsNext(h, w, Visit(h, w, acc, ns[0]), ns[1..]);
    }
  }

  lemma {:induction false} ExpandAllKeepsNext(h: int, w: int, acc: Acc, fs: seq<Coord>)
    ensures forall d | d in acc.next :: d in ExpandAll(h, w, acc, fs).next
    decreases fs
  {
    if fs != [] {
      var c := fs[0];
      var marked :=
        if !Alive(acc.cells, c) then Acc(Put(acc.cells, c, true), acc.next, acc.delta + [c])
        else acc;
      VisitAllKeepsNext(h, w, marked, Neighbours(c));
      ExpandAllKeepsNext(h, w, Expand(h, w, acc, c), fs[1..]);
    }
  }

  /** A cell already alive in the working copy is never collected. */
  lemma {:induction false} VisitAllSkipsAlive(h: int, w: int, acc: Acc, ns: seq<Coord>, x: Coord)
    requires Alive(acc.cells, x) && x !in acc.next
    ensures Alive(VisitAll(h, w, acc, ns).cells, x) && x !in VisitAll(h, w, acc, ns).next
    decreases ns
  {
    if ns != [] {
      VisitAllSkipsAlive(h, w, Visit(h, w, acc, ns[0]), ns[1..], x);
    }
  }

  lemma {:induction false} ExpandAllSkipsAlive(h: int, w: int, g0: Grid, acc: Acc, fs: seq<Coord>, x: Coord)
    requires Tracks(h, w, g0, acc) && forall f | f in fs :: InBounds(h, w, f)
    requires Alive(acc.cells, x) && x !in acc.next
    ensures x !in ExpandAll(h, w, acc, fs).next
    decreases fs
  {
    if fs != [] {
      var c := fs[0];
      var marked :=
        if !Alive(acc.cells, c) then Acc(Put(acc.cells, c, true), acc.next, acc.delta + [c])
        else acc;
      VisitAllSkipsAlive(h, w, marked, Neighbours(c), x);
      ExpandTracks(h, w, g0, acc, c);
      ExpandAllSkipsAlive(h, w, g0, Expand(h, w, acc, c), fs[1..], x);
    }
  }

  /** A listed in-bounds neighbour that is dead when the visit starts ends up
      in the new frontier. */
  lemma {:induction false} VisitAllCollects(h: int, w: int, g0: Grid, acc: Acc, ns: seq<Coord>, x: Coord)
    requires Tracks(h, w, g0, acc) && NoDup(ns)
    requires x in ns && InBounds(h, w, x) && !Alive(acc.cells, x)
    ensures x in VisitAll(h, w, acc, ns).next
    decreases ns
  {
    var a1 := Visit(h, w, acc, ns[0]);
    VisitTracks(h, w, g0, acc, ns[0]);
    if ns[0] == x {
      VisitAllKeepsNext(h, w, a1, ns[1..]);
    } else {
      assert x in ns[1..];
      VisitAllCollects(h, w, g0, a1, ns[1..], x);
    }
  }

  //---------------------------------------------------------------------------
  // Paint order inside one frontier cell
  //---------------------------------------------------------------------------

  /** The in-bounds neighbours in `ns` that are dead in `g`, in order. */
  function DeadNeighbours(h: int, w: int, g: Grid, ns: seq<Coord>): (r: seq<Coord>)
    ensures forall d :: d in r <==> d in ns && InBounds(h, w, d) && !Alive(g, d)
    decreases ns
  {
    if ns == [] then []
    else
      assert forall d :: d in ns <==> d == ns[0] || d in ns[1..];
      (if InBounds(h, w, ns[0]) && !Alive(g, ns[0]) then [ns[0]] else [])
      + DeadNeighbours(h, w, g, ns[1..])
  }

  /** Marking a cell outside `ns` alive does not change which of `ns` are dead. */
  lemma {:induction false} DeadNeighboursFrame(h: int, w: int, g: Grid, x: Coord, ns: seq<Coord>)
    requires x !in ns
    ensures DeadNeighbours(h, w, Put(g, x, true), ns) == DeadNeighbours(h, w, g, ns)
    decreases ns
  {
    if ns != [] {
      DeadNeighboursFrame(h, w, g, x, ns[1..]);
    }
  }

  /** Visiting a duplicate-free neighbour list paints its dead in-bounds
      members in list order, each once. */
  lemma {:induction false} VisitAllOrder(h: int, w: int, acc: Acc, ns: seq<Coord>)
    requires NoDup(ns)
    ensures VisitAll(h, w, acc, ns).delta == acc.delta + DeadNeighbours(h, w, acc.cells, ns)
    decreases ns
  {
    if ns != [] {
      var n := ns[0];
      var rest := ns[1..];
      var a1 := Visit(h, w, acc, n);
      assert NoDup(rest);
      VisitAllOrder(h, w, a1, rest);
      assert VisitAll(h, w, acc, ns) == VisitAll(h, w, a1, rest);
      if InBounds(h, w, n) && !Alive(acc.cells, n) {
        assert n !in rest;
        DeadNeighboursFrame(h, w, acc.cells, n, rest);
        VisitDeadOrder(h, w, acc, ns);
      } else {
        assert DeadNeighbours(h, w, acc.cells, ns) == DeadNeighbours(h, w, acc.cells, rest);
      }
    }
  }

  /** The step of `VisitAllOrder` for a dead in-bounds head. */
  lemma {:induction false} VisitDeadOrder(h: int, w: int, acc: Acc, ns: seq<Coord>)
    requires ns != [] && InBounds(h, w, ns[0]) && !Alive(acc.cells, ns[0])
    requires DeadNeighbours(h, w, Put(acc.cells, ns[0], true), ns[1..]) == DeadNeighbours(h, w, acc.cells, ns[1..])
    ensures Visit(h, w, acc, ns[0]).delta + DeadNeighbours(h, w, Visit(h, w, acc, ns[0]).cells, ns[1..])
         == acc.delta + DeadNeighbours(h, w, acc.cells, ns)
  {
  }

  /** When every listed cell is in bounds and dead, all of them are kept. */
  lemma {:induction false} DeadNeighboursAllDead(h: int, w: int, g: Grid, ns: seq<Coord>)
    requires forall n | n in ns :: InBounds(h, w, n) && !Alive(g, n)
    ensures DeadNeighbours(h, w, g, ns) == ns
    decreases ns
  {
    if ns != [] {
      DeadNeighboursAllDead(h, w, g, ns[1..]);
    }
  }

  /** A step from a single alive frontier cell paints exactly its dead
      in-bounds neighbours, up, down, left, right, and they become the frontier. */
  lemma StepSingleFrontierCell(e: Engine, c: Coord)
    requires Inv(e) && e.frontier == [c]
    ensures Step(e).delta == DeadNeighbours(e.height, e.width, e.cells, Neighbours(c))
    ensures Step(e).engine.frontier == Step(e).delta
  {
    var acc0 := Acc(e.cells, [], []);
    assert ExpandAll(e.height, e.width, acc0, e.frontier) == Expand(e.height, e.width, acc0, c);
    ExpandOrder(e.height, e.width, acc0, c);
  }

  /** Expanding an alive frontier cell paints its dead in-bounds neighbours
      in the order up, down, left, right. */
  lemma ExpandOrder(h: int, w: int, acc: Acc, c: Coord)
    requires Alive(acc.cells, c)
    ensures Expand(h, w, acc, c).delta == acc.delta + DeadNeighbours(h, w, acc.cells, Neighbours(c))
  {
    VisitAllOrder(h, w, acc, Neighbours(c));
  }

  //---------------------------------------------------------------------------
  // The 5x5 scenario
  //---------------------------------------------------------------------------

  /** The scenario's states: the centre toggled on a fresh 5x5 grid, then
      one and two steps. */
  const Toggled5x5: Engine := Toggle(Init(5, 5), 2, 2)
  const FirstStep5x5: Stepped := Step(Toggled5x5)
  const SecondStep5x5: Stepped := Step(FirstStep5x5.engine)

  /** On a fresh 5x5 grid, toggle the centre and step twice: the first step
      paints the four neighbours up, down, left, right and makes them the
      frontier; the second paints eight more cells; no corner is reached and
      the grid does not count as filled. */
  lemma Scenario5x5()
    ensures !IsFilled(SecondStep5x5.engine)
    ensures Toggled5x5.frontier == [(2, 2)]
    ensures FirstStep5x5.delta == [(1, 2), (3, 2), (2, 1), (2, 3)]
    ensures FirstStep5x5.engine.frontier == FirstStep5x5.delta
    ensures Elems(SecondStep5x5.delta) == SecondRing && |SecondStep5x5.delta| == 8
    ensures !Alive(SecondStep5x5.engine.cells, (0, 0)) && !Alive(SecondStep5x5.engine.cells, (0, 4))
    ensures !Alive(SecondStep5x5.engine.cells, (4, 0)) && !Alive(SecondStep5x5.engine.cells, (4, 4))
  {
    ScenarioToggle();
    ScenarioFirstStep(Toggled5x5);
    ScenarioSecondStep(FirstStep5x5.engine);
  }

  /** The centre toggled on a fresh 5x5 grid is the only alive cell and the
      only frontier cell. */
  lemma ScenarioToggle()
    ensures
      var e1 := Toggle(Init(5, 5), 2, 2);
      && Inv(e1) && e1.height == 5 && e1.width == 5
      && e1.frontier == [(2, 2)]
      && forall d :: Alive(e1.cells, d) <==> d == (2, 2)
  {
  }

  /** First step of the scenario: the four neighbours of the centre, up, down,
      left, right. */
  lemma ScenarioFirstStep(e1: Engine)
    requires Inv(e1) && e1.height == 5 && e1.width == 5 && e1.frontier == [(2, 2)]
    requires forall d :: Alive(e1.cells, d) <==> d == (2, 2)
    ensures Step(e1).delta == [(1, 2), (3, 2), (2, 1), (2, 3)]
    ensures Step(e1).engine.frontier == Step(e1).delta
    ensures Inv(Step(e1).engine) && Step(e1).engine.height == 5 && Step(e1).engine.width == 5
    ensures forall d :: Alive(Step(e1).engine.cells, d) <==> d == (2, 2) || d in Step(e1).delta
  {
    StepSingleFrontierCell(e1, (2, 2));
    DeadNeighboursAllDead(5, 5, e1.cells, Neighbours((2, 2)));
  }

  /** The cells two orthogonal hops from the centre of a 5x5 grid. */
  const SecondRing: set<Coord> := {(0, 2), (1, 1), (1, 3), (2, 0), (2, 4), (3, 1), (3, 3), (4, 2)}

  /** Second step of the scenario: eight more cells, none of them a corner. */
  lemma ScenarioSecondStep(e2: Engine)
    requires Inv(e2) && e2.height == 5 && e2.width == 5
    requires e2.frontier == [(1, 2), (3, 2), (2, 1), (2, 3)]
    requires forall d :: Alive(e2.cells, d) <==> d == (2, 2) || d in e2.frontier
    ensures Elems(Step(e2).delta) == SecondRing
    ensures |Step(e2).delta| == 8
    ensures !Alive(Step(e2).engine.cells, (0, 0)) && !Alive(Step(e2).engine.cells, (0, 4))
    ensures !Alive(Step(e2).engine.cells, (4, 0)) && !Alive(Step(e2).engine.cells, (4, 4))
    ensures !IsFilled(Step(e2).engine)
  {
    SecondStepPaintsRing(e2);
    SecondStepCorners(e2);
    NoDupCard(Step(e2).delta);
    SecondRingSize();
  }

  lemma SecondStepPaintsRing(e2: Engine)
    requires Inv(e2) && e2.height == 5 && e2.width == 5
    requires e2.frontier == [(1, 2), (3, 2), (2, 1), (2, 3)]
    requires forall d :: Alive(e2.cells, d) <==> d == (2, 2) || d in e2.frontier
    ensures Elems(Step(e2).delta) == SecondRing
  {
    var s2 := Step(e2);
    forall d
      ensures d in s2.delta <==> d in SecondRing
    {
      SecondRingExact(e2, d);
    }
    ElemsExact(s2.delta, SecondRing);
  }

  lemma SecondRingExact(e2: Engine, d: Coord)
    requires Inv(e2) && e2.height == 5 && e2.width == 5
    requires e2.frontier == [(1, 2), (3, 2), (2, 1), (2, 3)]
    requires forall d :: Alive(e2.cells, d) <==> d == (2, 2) || d in e2.frontier
    ensures d in Step(e2).delta <==> d in SecondRing
  {
    if Activated(e2, d) {
      SecondRingSound(e2, d);
    }
    if d in SecondRing {
      SecondRingComplete(e2, d);
    }
  }

  lemma SecondStepCorners(e2: Engine)
    requires Inv(e2) && e2.height == 5 && e2.width == 5
    requires e2.frontier == [(1, 2), (3, 2), (2, 1), (2, 3)]
    requires forall d :: Alive(e2.cells, d) <==> d == (2, 2) || d in e2.frontier
    ensures !Alive(Step(e2).engine.cells, (0, 0)) && !Alive(Step(e2).engine.cells, (0, 4))
    ensures !Alive(Step(e2).engine.cells, (4, 0)) && !Alive(Step(e2).engine.cells, (4, 4))
    ensures !IsFilled(Step(e2).engine)
  {
    CornerNotReached(e2.frontier, (0, 0));
    CornerNotReached(e2.frontier, (0, 4));
    CornerNotReached(e2.frontier, (4, 0));
    CornerNotReached(e2.frontier, (4, 4));
    assert Sentinels(5, 5)[0] == (0, 0);
  }

  /** No cell of the first ring is next to a corner of the 5x5 grid. */
  lemma CornerNotReached(fs: seq<Coord>, corner: Coord)
    requires fs == [(1, 2), (3, 2), (2, 1), (2, 3)]
    requires corner in [(0, 0), (0, 4), (4, 0), (4, 4)]
    ensures !Reached(5, 5, fs, corner)
  {
  }

  lemma SecondRingSize()
    ensures |SecondRing| == 8
  {
  }

  /** Every cell the second step activates lies on the second ring. */
  lemma SecondRingSound(e2: Engine, d: Coord)
    requires Inv(e2) && e2.height == 5 && e2.width == 5
    requires e2.frontier == [(1, 2), (3, 2), (2, 1), (2, 3)]
    requires forall d :: Alive(e2.cells, d) <==> d == (2, 2) || d in e2.frontier
    requires Activated(e2, d)
    ensures d in SecondRing
  {
    var f :| f in e2.frontier && Adjacent(f, d);
    assert !Alive(e2.cells, d);
    RingStep(f, d);
  }

  /** A cell next to a first-ring cell that is neither the centre nor on the
      first ring lies on the second ring. */
  lemma RingStep(f: Coord, d: Coord)
    requires f in [(1, 2), (3, 2), (2, 1), (2, 3)] && Adjacent(f, d)
    requires d != (2, 2) && d !in [(1, 2), (3, 2), (2, 1), (2, 3)]
    ensures d in SecondRing
  {
    var ns := Neighbours(f);
    assert d in ns;
    assert d == ns[0] || d == ns[1] || d == ns[2] || d == ns[3];
  }

  /** Every cell of the second ring is activated by the second step. */
  lemma SecondRingComplete(e2: Engine, d: Coord)
    requires Inv(e2) && e2.height == 5 && e2.width == 5
    requires e2.frontier == [(1, 2), (3, 2), (2, 1), (2, 3)]
    requires forall d :: Alive(e2.cells, d) <==> d == (2, 2) || d in e2.frontier
    requires d in SecondRing
    ensures Activated(e2, d)
  {
    var f := if d.0 <= 1 then (1, 2) else if d.0 >= 3 then (3, 2) else if d.1 < 2 then (2, 1) else (2, 3);
    assert f in e2.frontier && Adjacent(f, d);
  }

  //---------------------------------------------------------------------------
  // The fill heuristic
  //---------------------------------------------------------------------------

  /** The fill check is a sentinel check, not a scan: on every grid of at
      least 5x5, seeding only the five sentinels makes it true while the cell
      (0,1) is still dead. */
  lemma FilledIsNotExhaustive(h: int, w: int)
    requires h >= 5 && w >= 5
    ensures
      var ss := Sentinels(h, w);
      var g := Put(Put(Put(Put(Put(Init(h, w).cells, ss[0], true), ss[1], true), ss[2], true), ss[3], true), ss[4], true);
      var e := Engine(h, w, g, []);
      && Inv(e) && IsFilled(e) && InBounds(h, w, (0, 1)) && !Alive(e.cells, (0, 1))
  {
    var ss := Sentinels(h, w);
    var g := Put(Put(Put(Put(Put(Init(h, w).cells, ss[0], true), ss[1], true), ss[2], true), ss[3], true), ss[4], true);
    SentinelsInBounds(h, w);
    assert Shaped(g, h, w);
    assert forall s | s in ss :: Alive(g, s);
  }
}

=== FILE: js_math.dfy ===
/** The two `Math` functions both source files use, on integers. */
module JsMath {

  /** `Math.max` of two integers. */
  function Max(a: int, b: int): int {
    if a < b then b else a
  }

  /** `Math.min` of two integers. */
  function Min(a: int, b: int): int {
    if a < b then a else b
  }
}

=== FILE: ordered_set.dfy ===
/** A duplicate-free sequence with the insertion-order semantics of a
    JavaScript `Set`: `add` of a present element leaves the order alone,
    `add` of a new element appends it, `delete` removes it in place. */
module OrderedSet {

  /** The set view of a sequence. */
  function Elems<T(==)>(s: seq<T>): set<T> {
    set x | x in s
  }

  /** No element occurs twice. */
  predicate NoDup<T(==)>(s: seq<T>) {
    forall i, j | 0 <= i < j < |s| :: s[i] != s[j]
  }

  /** JS `Set.prototype.add`. */
  function Add<T(==,!new)>(s: seq<T>, x: T): (r: seq<T>)
    ensures Elems(r) == Elems(s) + {x}
    ensures forall y :: y in r <==> y in s || y == x
    ensures NoDup(s) ==> NoDup(r)
    ensures |s| <= |r| && r[..|s|] == s
    ensures x in s ==> r == s
    ensures x !in s ==> |r| == |s| + 1 && r[|s|] == x
  {
    if x in s then s else s + [x]
  }

  /** JS `Set.prototype.delete`. */
  function Delete<T(==,!new)>(s: seq<T>, x: T): (r: seq<T>)
    ensures Elems(r) == Elems(s) - {x}
    ensures forall y :: y in r <==> y in s && y != x
    ensures NoDup(s) ==> NoDup(r)
    ensures x !in s ==> r == s
    ensures |r| <= |s|
  {
    if s == [] then []
    else if s[0] == x then Delete(s[1..], x)
    else
      var rest := Delete(s[1..], x);
      var r := [s[0]] + rest;
      assert Elems(s) == {s[0]} + Elems(s[1..]);
      assert Elems(r) == {s[0]} + Elems(rest);
      assert NoDup(s) ==> s[0] !in rest;
      r
  }

  /** `delete` of a present element removes it in place: the elements before
      and after it keep their order. */
  lemma DeleteInPlace<T(!new)>(s: seq<T>, x: T)
    requires NoDup(s) && x in s
    ensures exists i | 0 <= i < |s| && s[i] == x :: Delete(s, x) == s[..i] + s[i + 1..]
  {
    var i :| 0 <= i < |s| && s[i] == x;
    DeleteAt(s, i);
  }

  /** Deleting the element at position `i` of a duplicate-free sequence cuts
      out exactly that position. */
  lemma {:induction false} DeleteAt<T(!new)>(s: seq<T>, i: int)
    requires NoDup(s) && 0 <= i < |s|
    ensures Delete(s, s[i]) == s[..i] + s[i + 1..]
    decreases i
  {
    if i == 0 {
      DeleteHead(s);
    } else {
      var t := s[1..];
      assert NoDup(t) && t[i - 1] == s[i];
      DeleteAt(t, i - 1);
      DeleteSkip(s, i);
    }
  }

  /** Deleting the head of a duplicate-free sequence leaves its tail. */
  lemma {:induction false} DeleteHead<T(!new)>(s: seq<T>)
    requires NoDup(s) && s != []
    ensures Delete(s, s[0]) == s[1..]
  {
    assert s[0] !in s[1..];
  }

  /** The inductive step of `DeleteAt`: a head other than the deleted element
      stays in front. */
  lemma {:induction false} DeleteSkip<T(!new)>(s: seq<T>, i: int)
    requires NoDup(s) && 0 < i < |s|
    requires Delete(s[1..], s[i]) == s[1..][..i - 1] + s[1..][i..]
    ensures Delete(s, s[i]) == s[..i] + s[i + 1..]
  {
    assert s[0] != s[i];
    var pre, post := s[1..][..i - 1], s[1..][i..];
    assert Delete(s, s[i]) == [s[0]] + (pre + post);
    assert s[..i] == [s[0]] + pre && s[i + 1..] == post;
    assert [s[0]] + (pre + post) == ([s[0]] + pre) + post;
  }

  /** A duplicate-free sequence has as many elements as its set view. */
  lemma {:induction false} NoDupCard<T>(s: seq<T>)
    requires NoDup(s)
    ensures |Elems(s)| == |s|
  {
    if s != [] {
      assert NoDup(s[1..]);
      NoDupCard(s[1..]);
      assert Elems(s) == {s[0]} + Elems(s[1..]);
      assert s[0] !in Elems(s[1..]);
    }
  }

  /** The set view is determined by membership. */
  lemma ElemsExact<T>(s: seq<T>, xs: set<T>)
    requires forall x :: x in s <==> x in xs
    ensures Elems(s) == xs
  {
  }
}

=== FILE: viewport.dfy ===
/** The pannable viewport prototype of
    Cell-Growth-Simulation-V2/src/cellSimulation.ts: a flat 400x400 byte
    array indexed row-major, a click toggle, arrow-key panning of pixel
    offsets and the range of cells the draw loop visits. */
module Viewport {
  import opened JsMath

  const GridRows: int := 400
  const GridCols: int := 400
  const CellSize: int := 10
  const PanStep: int := 50

  /** An element of the source's `Uint8Array`. */
  type Byte = x: int | 0 <= x < 256

  /** `grid`: one byte per cell, 0 dead and 1 alive. */
  predicate WellSized(cells: seq<Byte>) {
    |cells| == GridRows * GridCols
  }

  predicate InGrid(row: int, col: int) {
    0 <= row < GridRows && 0 <= col < GridCols
  }

  //---------------------------------------------------------------------------
  // getIndex
  //---------------------------------------------------------------------------

  /** `getIndex`: row-major position of a cell. */
  function GetIndex(row: int, col: int): (i: int)
    ensures InGrid(row, col) ==> 0 <= i < GridRows * GridCols
    ensures 0 <= col < GridCols ==> RowOf(i) == row && ColOf(i) == col
  {
    row * GridCols + col
  }

  /** The inverse of `GetIndex` on the array's positions. */
  function RowOf(i: int): int {
    i / GridCols
  }

  function ColOf(i: int): int {
    i % GridCols
  }

  /** Every array position is the index of exactly one in-grid cell. */
  lemma IndexRoundTrip(i: int)
    requires 0 <= i < GridRows * GridCols
    ensures InGrid(RowOf(i), ColOf(i)) && GetIndex(RowOf(i), ColOf(i)) == i
  {
  }

  /** Distinct in-grid cells have distinct indices. */
  lemma GetIndexInjective(r1: int, c1: int, r2: int, c2: int)
    requires InGrid(r1, c1) && InGrid(r2, c2)
    requires GetIndex(r1, c1) == GetIndex(r2, c2)
    ensures r1 == r2 && c1 == c2
  {
    assert RowOf(GetIndex(r1, c1)) == r1 && ColOf(GetIndex(r1, c1)) == c1;
  }

  //---------------------------------------------------------------------------
  // Click toggle
  //---------------------------------------------------------------------------

  /** The click handler once the mouse position is turned into a cell: an
      in-grid cell flips, 1 to 0 and anything else to 1; an outside click
      changes nothing. */
  function ClickToggle(cells: seq<Byte>, row: int, col: int): (r: seq<Byte>)
    requires WellSized(cells)
    ensures WellSized(r)
    ensures !InGrid(row, col) ==> r == cells
    ensures InGrid(row, col) ==>
      && (r[GetIndex(row, col)] == 1 <==> cells[GetIndex(row, col)] != 1)
      && r[GetIndex(row, col)] <= 1
      && forall i | 0 <= i < |cells| && i != GetIndex(row, col) :: r[i] == cells[i]
  {
    if InGrid(row, col) then
      var i := GetIndex(row, col);
      cells[i := if cells[i] == 1 then 0 else 1]
    else cells
  }

  /** Every cell holds 0 or 1. */
  predicate Binary(cells: seq<Byte>) {
    forall i | 0 <= i < |cells| :: cells[i] <= 1
  }

  /** On a 0/1 array a toggle keeps it 0/1 and a second click undoes the first. */
  lemma ClickToggleTwice(cells: seq<Byte>, row: int, col: int)
    requires WellSized(cells) && Binary(cells)
    ensures Binary(ClickToggle(cells, row, col))
    ensures ClickToggle(ClickToggle(cells, row, col), row, col) == cells
  {
    var once := ClickToggle(cells, row, col);
    var twice := ClickToggle(once, row, col);
    if InGrid(row, col) {
      var i := GetIndex(row, col);
      assert twice[i] == cells[i];
      assert forall j | 0 <= j < |cells| :: twice[j] == cells[j];
    }
  }

  //---------------------------------------------------------------------------
  // Arrow-key panning
  //---------------------------------------------------------------------------

  datatype Key = ArrowUp | ArrowDown | ArrowLeft | ArrowRight | OtherKey

  /** The pixel offsets and the canvas size. */
  datatype View = View(offsetX: int, offsetY: int, canvasWidth: int, canvasHeight: int)

  /** The view after a key and whether the handler redraws. */
  datatype Panned = Panned(view: View, redraw: bool)

  /** Largest vertical and horizontal offsets ArrowDown/ArrowRight allow. */
  function MaxOffsetY(v: View): int {
    GridRows * CellSize - v.canvasHeight
  }

  function MaxOffsetX(v: View): int {
    GridCols * CellSize - v.canvasWidth
  }

  /** The keydown handler: ArrowUp/ArrowLeft move back by 50 px but not
      below 0; ArrowDown/ArrowRight move forward by 50 px but not beyond the
      grid's far edge (with no lower clamp); any other key is ignored. */
  function Pan(v: View, k: Key): (r: Panned)
    ensures r.view.canvasWidth == v.canvasWidth && r.view.canvasHeight == v.canvasHeight
    ensures r.redraw <==> !k.OtherKey?
    ensures k.OtherKey? ==> r.view == v
    ensures k.ArrowUp? || k.ArrowDown? ==> r.view.offsetX == v.offsetX
    ensures k.ArrowLeft? || k.ArrowRight? ==> r.view.offsetY == v.offsetY
    ensures k.ArrowUp? ==> BackStep(v.offsetY, r.view.offsetY)
    ensures k.ArrowLeft? ==> BackStep(v.offsetX, r.view.offsetX)
    ensures k.ArrowDown? ==> ForwardStep(v.offsetY, MaxOffsetY(v), r.view.offsetY)
    ensures k.ArrowRight? ==> ForwardStep(v.offsetX, MaxOffsetX(v), r.view.offsetX)
  {
    match k
    case ArrowUp => Panned(v.(offsetY := Max(0, v.offsetY - PanStep)), true)
    case ArrowDown => Panned(v.(offsetY := Min(v.offsetY + PanStep, MaxOffsetY(v))), true)
    case ArrowLeft => Panned(v.(offsetX := Max(0, v.offsetX - PanStep)), true)
    case ArrowRight => Panned(v.(offsetX := Min(v.offsetX + PanStep, MaxOffsetX(v))), true)
    case OtherKey => Panned(v, false)
  }

  /** A backward pan: never negative, never more than one step back, never
      forward from a non-negative offset, and a full step unless it hits 0. */
  ghost predicate BackStep(before: int, after: int) {
    && 0 <= after
    && before - PanStep <= after
    && (0 <= before ==> after <= before)
    && (after == before - PanStep || after == 0)
  }

  /** A forward pan: never past `limit`, never more than one step forward,
      and a full step unless it hits `limit`. */
  ghost predicate ForwardStep(before: int, limit: int, after: int) {
    && after <= limit
    && after <= before + PanStep
    && (after == before + PanStep || after == limit)
  }

  /** Away from both bounds, ArrowDown and ArrowUp undo each other. */
  lemma PanDownUp(v: View)
    requires 0 <= v.offsetY && v.offsetY + PanStep <= MaxOffsetY(v)
    ensures Pan(Pan(v, ArrowDown).view, ArrowUp).view == v
  {
  }

  /** Away from both bounds, ArrowRight and ArrowLeft undo each other. */
  lemma PanRightLeft(v: View)
    requires 0 <= v.offsetX && v.offsetX + PanStep <= MaxOffsetX(v)
    ensures Pan(Pan(v, ArrowRight).view, ArrowLeft).view == v
  {
  }

  /** On a canvas wider than the 4000 px grid, ArrowRight makes the offset
      negative, since the forward clamp has no lower bound. */
  lemma WideCanvasPansNegative(v: View)
    requires v.offsetX == 0 && v.canvasWidth > GridCols * CellSize
    ensures Pan(v, ArrowRight).view.offsetX < 0
    ensures VisibleRange(Pan(v, ArrowRight).view).firstCol < 0
  {
  }

  //---------------------------------------------------------------------------
  // Visible range and the draw loop
  //---------------------------------------------------------------------------

  /** The rows `firstRow <= row < lastRow` and columns
      `firstCol <= col < lastCol` the draw loop visits. */
  datatype Range = Range(firstRow: int, lastRow: int, firstCol: int, lastCol: int)

  /** `Math.floor(a / CellSize)`; Dafny's division rounds down for a positive divisor. */
  function FloorDiv(a: int): int {
    a / CellSize
  }

  /** `Math.ceil(a / CellSize)`. */
  function CeilDiv(a: int): int {
    (a + CellSize - 1) / CellSize
  }

  /** The range computation at the top of `draw`. */
  function VisibleRange(v: View): (r: Range)
    ensures r.lastRow <= GridRows && r.lastCol <= GridCols
    ensures r.firstRow * CellSize <= v.offsetY < (r.firstRow + 1) * CellSize
    ensures r.firstCol * CellSize <= v.offsetX < (r.firstCol + 1) * CellSize
    ensures v.offsetY >= 0 ==> r.firstRow >= 0
    ensures v.offsetX >= 0 ==> r.firstCol >= 0
    ensures r.lastRow < GridRows ==> (r.lastRow - r.firstRow) * CellSize >= v.canvasHeight
    ensures r.lastCol < GridCols ==> (r.lastCol - r.firstCol) * CellSize >= v.canvasWidth
    ensures r.lastRow > r.firstRow ==> (r.lastRow - r.firstRow - 1) * CellSize < v.canvasHeight
    ensures r.lastCol > r.firstCol ==> (r.lastCol - r.firstCol - 1) * CellSize < v.canvasWidth
  {
    var firstCol := FloorDiv(v.offsetX);
    var firstRow := FloorDiv(v.offsetY);
    var visibleCols := CeilDiv(v.canvasWidth);
    var visibleRows := CeilDiv(v.canvasHeight);
    Range(firstRow, Min(firstRow + visibleRows, GridRows), firstCol, Min(firstCol + visibleCols, GridCols))
  }

  /** Whether the pixel band `[k * CellSize, (k + 1) * CellSize)` of cell
      line `k` overlaps the canvas band `[offset, offset + size)`. */
  predicate OnCanvas(k: int, offset: int, size: int) {
    offset < (k + 1) * CellSize && k * CellSize < offset + size
  }

  /** On each axis the canvas starts or ends on a cell boundary. */
  predicate Aligned(v: View) {
    && (v.offsetY % CellSize == 0 || (v.offsetY + v.canvasHeight) % CellSize == 0)
    && (v.offsetX % CellSize == 0 || (v.offsetX + v.canvasWidth) % CellSize == 0)
  }

  /** Panning keeps a view aligned: it moves by `PanStep` or clamps to 0 or
      to `4000 - size`. Only a resize, which keeps the offsets, can break it. */
  lemma PanKeepsAligned(v: View, k: Key)
    requires Aligned(v)
    ensures Aligned(Pan(v, k).view)
    ensures Aligned(View(0, 0, v.canvasWidth, v.canvasHeight))
  {
  }

  /** On an aligned view the draw loop visits exactly the rows and columns
      inside the grid's far edge that overlap the canvas. */
  lemma VisibleRangeExact(v: View, row: int, col: int)
    requires Aligned(v)
    ensures var r := VisibleRange(v);
      r.firstRow <= row < r.lastRow <==> row < GridRows && OnCanvas(row, v.offsetY, v.canvasHeight)
    ensures var r := VisibleRange(v);
      r.firstCol <= col < r.lastCol <==> col < GridCols && OnCanvas(col, v.offsetX, v.canvasWidth)
  {
    LineExact(v.offsetY, v.canvasHeight, row);
    LineExact(v.offsetX, v.canvasWidth, col);
  }

  /** One axis of `VisibleRange`: first line `FloorDiv(offset)`, then
      `CeilDiv(size)` more. */
  lemma LineExact(offset: int, size: int, k: int)
    requires offset % CellSize == 0 || (offset + size) % CellSize == 0
    ensures FloorDiv(offset) <= k < FloorDiv(offset) + CeilDiv(size) <==> OnCanvas(k, offset, size)
  {
    var a, b := FloorDiv(offset), offset % CellSize;
    assert offset == a * CellSize + b;
    var c := CeilDiv(size);
    assert c * CellSize - CellSize < size <= c * CellSize;
    // The canvas ends at the far edge of line `a + c - 1`.
    assert b == 0 || size == c * CellSize - b;
    var m := k - a;
    assert OnCanvas(k, offset, size) <==> b < (m + 1) * CellSize && m * CellSize < b + size;
    if 0 <= m && m < c {
      assert m * CellSize <= c * CellSize - CellSize;
    }
    if b < (m + 1) * CellSize && m * CellSize < b + size {
      assert m * CellSize < c * CellSize;
      assert 0 <= m;
    }
  }

  /** Off a cell boundary a partly visible last row can be left out: the
      canvas band `[2955, 3953)` reaches into row 395 (pixels 3950 to 3959),
      but the loop stops after row 394. Such an offset arises after ArrowDown
      clamps at `4000 - 995`, ArrowUp, and a resize of the canvas to 998. */
  lemma PartialRowSkipped()
    ensures var v := View(0, 2955, 100, 998);
      OnCanvas(395, v.offsetY, v.canvasHeight) && 395 < GridRows && VisibleRange(v).lastRow == 395
  {
  }

  /** One `fillRect` of the draw loop: the cell and whether it is green. */
  datatype Paint = Paint(row: int, col: int, green: bool)

  /** `grid[index] === 1`; a read outside the array is `undefined`, not 1. */
  predicate ReadsAlive(cells: seq<Byte>, i: int) {
    0 <= i < |cells| && cells[i] == 1
  }

  /** Number of values in `lo <= x < hi`. */
  function Span(lo: int, hi: int): nat {
    if lo < hi then hi - lo else 0
  }

  /** The nested cell loop of `draw`: `rows[i][j]` is the paint of cell
      `(firstRow + i, firstCol + j)`; rows and columns never pass the grid's
      far edge, and with non-negative offsets every read is inside the array. */
  method DrawCells(v: View, cells: seq<Byte>) returns (rows: seq<seq<Paint>>)
    requires WellSized(cells)
    ensures var rg := VisibleRange(v);
      && |rows| == Span(rg.firstRow, rg.lastRow)
      && forall i | 0 <= i < |rows| ::
        && |rows[i]| == Span(rg.firstCol, rg.lastCol)
        && forall j | 0 <= j < |rows[i]| ::
          rows[i][j] == Paint(rg.firstRow + i, rg.firstCol + j,
                              ReadsAlive(cells, GetIndex(rg.firstRow + i, rg.firstCol + j)))
    ensures forall i, j | 0 <= i < |rows| && 0 <= j < |rows[i]| ::
      rows[i][j].row < GridRows && rows[i][j].col < GridCols
    ensures v.offsetX >= 0 && v.offsetY >= 0 ==>
      forall i, j | 0 <= i < |rows| && 0 <= j < |rows[i]| ::
        InGrid(rows[i][j].row, rows[i][j].col)
        && 0 <= GetIndex(rows[i][j].row, rows[i][j].col) < |cells|
        && rows[i][j].green == (cells[GetIndex(rows[i][j].row, rows[i][j].col)] == 1)
  {
    var rg := VisibleRange(v);
    rows := [];
    var row := rg.firstRow;
    while row < rg.lastRow
      invariant rg.firstRow <= row
      invariant row <= rg.lastRow || row == rg.firstRow
      invariant |rows| == row - rg.firstRow
      invariant forall i | 0 <= i < |rows| ::
        && |rows[i]| == Span(rg.firstCol, rg.lastCol)
        && forall j | 0 <= j < |rows[i]| ::
          rows[i][j] == Paint(rg.firstRow + i, rg.firstCol + j,
                              ReadsAlive(cells, GetIndex(rg.firstRow + i, rg.firstCol + j)))
    {
      var line := [];
      var col := rg.firstCol;
      while col < rg.lastCol
        invariant rg.firstCol <= col
        invariant col <= rg.lastCol || col == rg.firstCol
        invariant |line| == col - rg.firstCol
        invariant forall j | 0 <= j < |line| ::
          line[j] == Paint(row, rg.firstCol + j, ReadsAlive(cells, GetIndex(row, rg.firstCol + j)))
      {
        line := line + [Paint(row, col, ReadsAlive(cells, GetIndex(row, col)))];
        col := col + 1;
      }
      rows := rows + [line];
      row := row + 1;
    }
  }
}
